=== FILE: README.md ===
# cobalt request dispatch, modelled in Dafny

cobalt is a small Go web toolkit. A `Cobalt` dispatcher holds five things:
- a router;
- a list of global pre-filters (`func(*Context) bool`);
- a list of global post-filters (`func(*Context)`);
- an optional server-error handler;
- the coder shared by every request's context.

For every route, `addroute` registers a closure. That closure creates a per-request `Context`, tags the response with an `X-Request-Id` header and runs the global pre-filters. It then runs the route's own filters, the route handler and the global post-filters. A filter returning `false` ends the request. A panic in any of these stages is recovered by the closure. If a server-error handler is installed, it runs and no completion record is logged. If none is installed, the completion record is logged. A panic inside the server-error handler itself is not recovered and escapes the closure. The not-found path (cobalt.go:99-102) has no recovery at all. When every stage returns without a panic, one completion record is logged. A stage that never returns stalls the request with no record (see "## Left out"). The `Context` carries:
- the request id and the request;
- free-form scratch data;
- the route parameters;
- the shared coder;
- the last status written by its helpers;
- the response writer.

Its helpers write encoded values, statuses and raw bytes.

The model is functional:
- A context is an immutable value, and the response writer is the log of calls made on it (`Response.Event`).
- A filter is a function `Context -> (Context, Signal)`. The signal is `Continue` (returned `true`), `Halt` (returned `false`) or `Panic`.
- A handler is a function `Context -> (Context, Completion)`.
- One request produces a trace of steps. Each step records its stage, the context it was handed, the context it left, and how it ended.

`Dispatcher.Dispatch` is the route closure. `DispatchProperties.Next` is an independent small-step statement of the same pipeline. `DispatchIsTheExecution` proves that the closure's trace is the one and only complete run of that state machine. The guarantees follow in `DispatchGuarantees`:
- the request id comes first;
- filters run in order and `false` stops everything;
- the handler runs if and only if every filter passed;
- post-filters run only after the handler;
- panics are isolated;
- completion is accounted for;
- one context is threaded through every stage.

Modules:
- `Wrappers`: `Option`.
- `Decimal`: Go's `%d` rendering of the `max-age` value, with its inverse.
- `Response`: the writer's event log and the queries on it.
- `RequestContext`: context.go.
- `Pipeline`: the filter and post-filter loops.
- `Dispatcher`: cobalt.go.
- `DispatchProperties`: the state machine and the characterisation.
- `DispatchGuarantees`: the corollaries.

Where the documentation and the code disagree, the model follows the code:
- The package comment (cobalt.go:5) says a pre-filter ends the chain by returning `true`. The code (cobalt.go:184) ends it on `false`, as the comment at cobalt.go:7-9 says. The model halts on `false`.
- After the server-error handler runs, the deferred function returns (cobalt.go:174) before the completion log line at cobalt.go:177. So no completion record is logged for a recovered panic that had a handler. The model logs no record in that case (`Dispatcher.Guard`).
- `Context.Error` passes its status as the cache lifetime (context.go:79). See Findings.

## Model

| member | source | states |
|---|---|---|
| RequestContext.NewContext | context.go:35-46 | A new context carries the given id, request, coder and route parameters. Every scratch key reads as nil. The recorded status is 0. Nothing has been written to the response. |
| RequestContext.RouteValue | context.go:49-55 | The value the router matched for the key; the empty string when the key is missing or there are no parameters at all. |
| RequestContext.AllRouteValues | context.go:58-60 | The router's parameters unchanged. A nil map stays nil, the key set is the same, and each key's value is what `RouteValue` returns for it. |
| RequestContext.GetData | context.go:64-70 | The stored scratch value, or nil when the key was never set. |
| RequestContext.SetData | context.go:73-75 | Reading the key back gives the value just stored. Every other key reads as before. No other part of the context changes. |
| RequestContext.EffectiveStatus | context.go:119-121 | The status a helper writes is never 0: a 0 becomes 200 and any other status is kept. |
| RequestContext.MaxAgeOfCacheControl | context.go:124-126 | The `Cache-control` value written for a positive lifetime parses back to exactly that number of seconds. |
| RequestContext.ServeEncoded | context.go:117-135 | The helper only appends to the response and changes nothing but the response and the recorded status. The recorded status is the one written (0 meaning 200). Exactly one status is written. `Content-Type` is the coder's type. A `Cache-control` header is present if and only if seconds > 0. Its text is then exactly `private, must-revalidate, max-age=` followed by the `%d` rendering of seconds, which parses back to that lifetime. No other header is set. The value is encoded once unless it is nil. Headers come before the status and the body after it. |
| RequestContext.Serve | context.go:93-95 | An encoded reply with status 200 and no cache header. |
| RequestContext.ServeWithStatus | context.go:98-100 | An encoded reply with the given status (0 meaning 200) and no cache header. |
| RequestContext.ServeCachedWithStatus | context.go:112-114 | An encoded reply with the given status and a cache lifetime of `seconds` when positive. |
| RequestContext.Error | context.go:78-80 | As written: the reply's status is always 200 and the status argument becomes the cache lifetime. |
| RequestContext.ErrorIntended | context.go:77-80 | As the name and comment intend: the given status is written and recorded, and nothing is cached. |
| RequestContext.ErrorLosesStatus | context.go:79 | `Error(body, 404)` reaches the client as 200 with `max-age=404`, where the intended helper writes 404 with no cache header. |
| RequestContext.ServeStatus | context.go:103-109 | Only a status is written, 0 meaning 200, and it is recorded. There is no header and no body, and nothing else in the context changes. |
| RequestContext.ServeResponse | context.go:138-144 | `Content-Type` is set exactly when a content type is given, and no other header is set. The status is written verbatim, then the bytes verbatim. The recorded status is left unchanged. |
| Decimal.Show | context.go:125 | `%d` of a non-negative number is non-empty, all digits, with no leading zero. |
| Decimal.ParseShow | context.go:125 | Parsing the rendered number gives the number back. |
| Decimal.ShowInjective | context.go:125 | Distinct lifetimes give distinct header values. |
| Pipeline.RunFilters | cobalt.go:183-195 | Filters run from the first, in order, each on the context the previous one left. Every filter before the last one run returned true. The run went on past the end exactly when all of them returned true. |
| Pipeline.RunPostfilters | cobalt.go:201-203 | Post-filters run in order on one threaded context. They cannot stop the request; only a panic ends the loop early. |
| Dispatcher.New | cobalt.go:73-75 | A new dispatcher has the given coder, no routes, no filters and no handlers. |
| Dispatcher.AddPrefilter | cobalt.go:83-85 | The filter is appended last, the earlier pre-filters keep their order, and nothing else changes. |
| Dispatcher.AddPostfilter | cobalt.go:88-90 | The post-filter is appended last, the earlier ones keep their order, and nothing else changes. |
| Dispatcher.AddServerErrHandler | cobalt.go:93-95 | The given handler, possibly nil, replaces any earlier one. A nil handler leaves the dispatcher without recovery. Nothing else changes. |
| Dispatcher.AddNotFoundHandler | cobalt.go:98-105 | The router's not-found handler is installed, replacing any earlier one, and nothing else changes. |
| Dispatcher.AddRoute | cobalt.go:206 | The (verb, path) key is bound to exactly the given handler and route filters. Every other route is untouched. Nothing else in the dispatcher changes. The filters are stored as a snapshot (see "## Left out"). |
| Dispatcher.Get | cobalt.go:108-110 | Exactly `addroute` with the verb `GET`: the (`GET`, path) key is bound to the handler and filters. Every other route and the rest of the dispatcher are unchanged. |
| Dispatcher.Post | cobalt.go:113-115 | Exactly `addroute` with the verb `POST`: the (`POST`, path) key is bound to the handler and filters. Every other route and the rest of the dispatcher are unchanged. |
| Dispatcher.Put | cobalt.go:118-120 | Exactly `addroute` with the verb `PUT`: the (`PUT`, path) key is bound to the handler and filters. Every other route and the rest of the dispatcher are unchanged. |
| Dispatcher.Delete | cobalt.go:123-125 | Exactly `addroute` with the verb `DELETE`: the (`DELETE`, path) key is bound to the handler and filters. Every other route and the rest of the dispatcher are unchanged. |
| Dispatcher.Options | cobalt.go:128-130 | Exactly `addroute` with the verb `OPTIONS`: the (`OPTIONS`, path) key is bound to the handler and filters. Every other route and the rest of the dispatcher are unchanged. |
| Dispatcher.Head | cobalt.go:133-135 | Exactly `addroute` with the verb `HEAD`: the (`HEAD`, path) key is bound to the handler and filters. Every other route and the rest of the dispatcher are unchanged. |
| Dispatcher.WithRequestId | cobalt.go:181 | Tagging appends exactly one `X-Request-Id` header holding the context's own id and changes nothing else. |
| Dispatcher.RunPrefilters | cobalt.go:183-187 | The global pre-filters occupy plan positions 1.. in registration order. When all of them pass, there is one step per pre-filter. |
| Dispatcher.RunRouteFilters | cobalt.go:190-195 | The route's filters come right after the global ones, in order. When all of them pass, there is one step per filter. |
| Dispatcher.RunRouteHandler | cobalt.go:198 | The handler is exactly one step, at the plan position after the last filter. |
| Dispatcher.RunPostfilterChain | cobalt.go:201-203 | The post-filters occupy the plan positions after the handler, in registration order. |
| Dispatcher.RunHandler | cobalt.go:197-203 | Handler then post-filters, on plan, with one threaded context. The post-filters are skipped only if the handler panicked. |
| Dispatcher.RunRoute | cobalt.go:189-203 | Route filters, handler and post-filters, on plan. The handler and post-filters are reached only if every route filter went on. |
| Dispatcher.RunChain | cobalt.go:182-203 | Everything after the request id, on plan. When nothing halts or panics, every planned stage runs. |
| Dispatcher.Guard | cobalt.go:164-178 | After a panic with a server-error handler installed, the handler runs once on the context the panic left, and no record is logged. Otherwise one record is logged, with the final context's id and status and the request's method, URI and remote address. A panic in the server-error handler escapes. |
| Dispatcher.RunBoundary | cobalt.go:180-203 | The request id is the first stage, on the new context. Every step runs its stage's code at its planned position. Every step but the last went on. One context is threaded through all of them. |
| Dispatcher.Dispatch | cobalt.go:160-204 | The whole route closure meets `Behaves` from the new context. The request id comes first, then the planned stages in order, each by its own code, with every stage but the last going on. A halt or panic ends the boundary. Recovery, the completion record and escape are as in `Guard`. |
| Dispatcher.ServeHTTP | cobalt.go:138-141 | A matched request is served by its route's closure: the reply meets `Behaves` from a new context holding the router's parameters. That fixes the stage order, the threading of one context, recovery, the completion record and escape. An unmatched one runs only the not-found handler, on a new context with no parameters, or the router's default reply if no handler is installed. |
| DispatchProperties.NextWalksPlan | cobalt.go:183-203 | Continuing from a planned stage, the state machine moves to the next planned stage, or ends after the last one. |
| DispatchProperties.BehavesIsExecution | cobalt.go:160-204 | A served request meeting the contract, recovery included, is a complete run of the state machine. |
| DispatchProperties.DispatchIsExecution | cobalt.go:160-204 | The route closure's trace is a complete run of the state machine from the new context. |
| DispatchProperties.ExecutionUnique | cobalt.go:160-204 | The state machine is deterministic: two complete runs from one context are identical. |
| DispatchProperties.DispatchIsTheExecution | cobalt.go:160-204 | Any complete run of the state machine from the closure's new context is exactly the closure's trace and ends in its final context. |
| DispatchGuarantees.RequestIdSetFirst | cobalt.go:181 | The id header is written first, holding the context's own id. The next stage is handed that context. No later stage sets the id again. |
| DispatchGuarantees.DispatchWritesRequestIdFirst | cobalt.go:161-181 | The closure starts from an empty response, so the id header is the first thing written. |
| DispatchGuarantees.StagesRunInPlanOrder | cobalt.go:183-203 | Stage k is the k-th planned stage, run by that stage's code, and every earlier stage went on. |
| DispatchGuarantees.FalseFilterHaltsRequest | cobalt.go:183-195 | A `false` can only come from a pre-filter or route filter. Once it does, nothing else runs: no handler, no post-filter. The completion record is logged. |
| DispatchGuarantees.HandlerRunsIffFiltersPass | cobalt.go:183-198 | The handler runs if and only if every pre-filter and route filter passed, and then exactly once, right after the last filter. |
| DispatchGuarantees.PostfilterRunsAfterHandler | cobalt.go:197-203 | Post-filter i runs only after the handler finished normally and after post-filters 0..i-1 finished normally. |
| DispatchGuarantees.AllPostfiltersRunAfterHandler | cobalt.go:200-203 | Once the handler returned normally and no post-filter panics, all post-filters run, in registration order. |
| DispatchGuarantees.PanicSkipsRemainingStages | cobalt.go:164-177 | A panic ends the boundary at that stage. With a server-error handler, the handler runs on the context the panic left and no record is logged. Without one, the record is logged with that context's status. |
| DispatchGuarantees.NoPanicLogsCompletion | cobalt.go:177 | Without a panic, whether the chain finished or a filter stopped it, the record is logged once with the final context's id and status. |
| DispatchGuarantees.ScratchDataReachesLaterStages | cobalt.go:161-203 | Scratch data set by one stage is what any later stage reads, the server-error handler included, unless a stage in between rewrote it. |
| DispatchGuarantees.NotFoundRunsOnlyItsHandler | cobalt.go:98-104 | The not-found path runs only the not-found handler. There is no request id header and there are no route parameters. |
| DispatchGuarantees.MatchedRequestDispatches | cobalt.go:138-141 | A matched request runs the complete state-machine execution of the route stored at registration, with its filters as they were registered. Its route values are the router's parameters. |
| DispatchGuarantees.PrefilterOrderAgainstRoutesIrrelevant | cobalt.go:83-85 | Global filters are read when a request is served. Adding a pre-filter before or after registering a route gives the same dispatcher. |
| DispatchGuarantees.NilServerErrorHandlerLogsPanics | cobalt.go:165-177 | After a nil server-error handler is registered, a panic ends the request: no recovery, no escape, and the completion record carries the panicking context's status. |
| DispatchGuarantees.ServerErrorLastWins | cobalt.go:93-95 | The last server-error handler registered is the one in force. |

## Left out

- The router's path matching (httprouter's trie, wildcards and parameter extraction) is not part of this model. A request's match is an input (`Dispatcher.Resolution`). The registered table is a map from (verb, path) to route.
- Registering the same (verb, path) twice makes the router panic. `Dispatcher.AddRoute` and its verb wrappers require the key to be new instead of modelling that panic.
- Request ids: the UUID generator is replaced by an `id` parameter.
- The coder's `Encode` and `Decode`, and the `Context.Decode` and `Context.DecodeBody` that call it: encoding is recorded as a `WriteBody(Encoded(value))` event. Decoding reads an `io.Reader` and is left out. The coder is reduced to its content type.
- Logging: the start line (cobalt.go:180), the panic message and the stack dump are text output. Only the completion record's fields are modelled.
- `Run` and `http.ListenAndServe`, and the `Coder()` accessor: I/O and a trivial getter.
- The writer's own semantics are left out. The response is the raw log of calls made on it. Three net/http behaviours are therefore not modelled:
  - `WriteHeader` panics on any status outside 100-999, including 0. So `ServeStatus(42)` records 42 and then panics (context.go:107-108), and `serveEncoded(v, 42, 0)` panics before it records the status (context.go:128, 134). The model writes such statuses as given.
  - Only the first `WriteHeader` takes effect.
  - Header changes after `WriteHeader` are ignored.
- Dispatcher.Guard: the request is an immutable value (`RequestContext.Request`). The completion record's method, URI and remote address are those of the request the closure received. In Go, `ctx.Request` and the closure's `req` are the same `*http.Request` (context.go:40, cobalt.go:161), and cobalt.go:177 reads its fields when it logs. A stage that changes `*ctx.Request` in place, such as a method-override filter, therefore changes what Go logs, but not the model's record.
- Pipeline.Filter and Pipeline.Handler are total functions, so every stage returns. In Go, a stage can block or loop forever: a pre-filter (cobalt.go:184), a route filter (cobalt.go:191), the handler (cobalt.go:198), a post-filter (cobalt.go:202) or the server-error handler (cobalt.go:173). The request then stalls. The deferred function never runs, so nothing is recovered and no completion record is logged. `Dispatcher.Behaves`, `Dispatcher.Dispatch`, `Dispatcher.ServeHTTP` and `DispatchGuarantees.NoPanicLogsCompletion` describe only requests whose stages all return.
- Dispatcher.AddRoute stores the route filters as a value, a snapshot taken at registration. Go's closure captures the `filters` slice itself (cobalt.go:158, 190). A caller who passes an existing slice with `fs...` hands over that slice without a copy, so a later `fs[0] = g` makes every later request on the route run `g` at cobalt.go:191. The model does not follow such aliasing. Filters listed one by one get a fresh slice in Go, and for them the model is exact.
- Concurrency: one request's stages run one after another on one context, and registration is modelled as building a value before serving.
- Go's interface subtleties (a typed nil value passed to `serveEncoded` is not `nil`) are left out. `Value.Nil` is the only nil.
- Route groups have no code in the repository and are not modelled.
- What happens once a panic escapes the closure (net/http's own recovery in the connection's goroutine) is outside the model. An escaped panic is only flagged: by `Served.escaped`, or by the not-found step's signal.
- Nil filters and handlers: Go lets a nil filter, handler or post-filter be registered, and calling it panics (cobalt.go:184, 191, 198, 202). The repository's own tests register a nil route filter. The model has no nil function value. Such an entry is represented by a function that returns `Panic` at once, which reaches the same recovery path. A nil not-found handler is the same: the router's wrapper calls it and panics. Only the server-error handler's nil is stored as such (`Dispatcher.AddServerErrHandler` takes an `Option`), because cobalt.go:171 tests it.
- Header-name canonicalisation: `http.Header.Set` stores names in canonical form (`Cache-control` becomes `Cache-Control`), so a later `Set` spelled in another case overwrites an earlier one. `Response.Header` compares names exactly as written and does not model this.
- `panic(nil)`: before Go 1.21, `recover()` returns nil for it, so the check at cobalt.go:165 skips the server-error handler and logs the completion record as if nothing had panicked. From Go 1.21, `panic(nil)` is turned into a non-nil runtime error and is recovered like any other panic. The model follows the later behaviour: every `Panic` is recovered. This behaviour depends on the Go version.

## Findings

| source | as written | input that shows it | evidently intended | confidence | as-written member | corrected member |
|---|---|---|---|---|---|---|
| context.go:79 | `Error` calls `serveEncoded(body, 0, status)`, so the status goes into the cache-lifetime slot | `Error(body, 404)` writes status 200 and `Cache-control: private, must-revalidate, max-age=404` (`RequestContext.ErrorLosesStatus`) | `serveEncoded(body, status, 0)`: the given status is written and nothing is cached | high; not executed | RequestContext.Error | RequestContext.ErrorIntended |

=== FILE: cobalt.dfy ===
/**
  The `Cobalt` dispatcher of cobalt.go: its registration operations, the
  per-route closure built by `addroute` (here `Dispatch`) and the top-level
  `ServeHTTP`, with the router reduced to an opaque resolution.
 */
module Dispatcher {

  import opened Wrappers
  import opened Response
  import opened RequestContext
  import opened Pipeline

  const GetMethod: string := "GET"
  const PostMethod: string := "POST"
  const PutMethod: string := "PUT"
  const DeleteMethod: string := "DELETE"
  const OptionsMethod: string := "OPTIONS"
  const HeadMethod: string := "HEAD"

  /** What a route closure captures at registration: its own filters and its handler. */
  datatype Route = Route(filters: seq<Filter>, handler: Handler)

  datatype RouteKey = RouteKey(verb: string, path: string)

  /**
    The dispatcher. `routes` and `notFound` stand for the router's table and
    its `NotFound` handler; the rest are read by every closure when it runs.
   */
  datatype Cobalt = Cobalt(
    routes: map<RouteKey, Route>,
    notFound: Option<Handler>,
    prefilters: seq<Filter>,
    postfilters: seq<Handler>,
    serverError: Option<Handler>,
    coder: Coder)

  function New(coder: Coder): (c: Cobalt)
    ensures c.coder == coder
    ensures c.routes == map[] && c.notFound.None?
    ensures c.prefilters == [] && c.postfilters == [] && c.serverError.None?
  {
    Cobalt(map[], None, [], [], None, coder)
  }

  /** Appends a global pre-filter; earlier ones keep their places. */
  function AddPrefilter(c: Cobalt, f: Filter): (c': Cobalt)
    ensures |c'.prefilters| == |c.prefilters| + 1
    ensures c'.prefilters[..|c.prefilters|] == c.prefilters
    ensures c'.prefilters[|c.prefilters|] == f
    ensures c'.(prefilters := c.prefilters) == c
  {
    c.(prefilters := c.prefilters + [f])
  }

  /** Appends a global post-filter; earlier ones keep their places. */
  function AddPostfilter(c: Cobalt, h: Handler): (c': Cobalt)
    ensures |c'.postfilters| == |c.postfilters| + 1
    ensures c'.postfilters[..|c.postfilters|] == c.postfilters
    ensures c'.postfilters[|c.postfilters|] == h
    ensures c'.(postfilters := c.postfilters) == c
  {
    c.(postfilters := c.postfilters + [h])
  }

  /**
    `AddServerErrHanlder`: stores the server-error handler, replacing any
    earlier one; `None` is Go's nil, which leaves the dispatcher without one.
   */
  function AddServerErrHandler(c: Cobalt, h: Option<Handler>): (c': Cobalt)
    ensures c'.serverError == h
    ensures c'.(serverError := c.serverError) == c
  {
    c.(serverError := h)
  }

  /** Installs the router's not-found handler, replacing any earlier one. */
  function AddNotFoundHandler(c: Cobalt, h: Handler): (c': Cobalt)
    ensures c'.notFound == Some(h)
    ensures c'.(notFound := c.notFound) == c
  {
    c.(notFound := Some(h))
  }

  /** `addroute`: binds the route's filters and handler under (verb, path); the router refuses a second binding. */
  function AddRoute(c: Cobalt, verb: string, path: string, h: Handler, filters: seq<Filter>): (c': Cobalt)
    requires RouteKey(verb, path) !in c.routes
    ensures RouteKey(verb, path) in c'.routes
    ensures c'.routes[RouteKey(verb, path)].handler == h
    ensures c'.routes[RouteKey(verb, path)].filters == filters
    ensures forall k :: k != RouteKey(verb, path) ==> (k in c'.routes <==> k in c.routes)
    ensures forall k :: k != RouteKey(verb, path) && k in c.routes ==> c'.routes[k] == c.routes[k]
    ensures c'.(routes := c.routes) == c
  {
    c.(routes := c.routes[RouteKey(verb, path) := Route(filters, h)])
  }

  function Get(c: Cobalt, path: string, h: Handler, filters: seq<Filter>): (c': Cobalt)
    requires RouteKey(GetMethod, path) !in c.routes
    ensures c' == AddRoute(c, GetMethod, path, h, filters)
  {
    AddRoute(c, GetMethod, path, h, filters)
  }

  function Post(c: Cobalt, path: string, h: Handler, filters: seq<Filter>): (c': Cobalt)
    requires RouteKey(PostMethod, path) !in c.routes
    ensures c' == AddRoute(c, PostMethod, path, h, filters)
  {
    AddRoute(c, PostMethod, path, h, filters)
  }

  function Put(c: Cobalt, path: string, h: Handler, filters: seq<Filter>): (c': Cobalt)
    requires RouteKey(PutMethod, path) !in c.routes
    ensures c' == AddRoute(c, PutMethod, path, h, filters)
  {
    AddRoute(c, PutMethod, path, h, filters)
  }

  function Delete(c: Cobalt, path: string, h: Handler, filters: seq<Filter>): (c': Cobalt)
    requires RouteKey(DeleteMethod, path) !in c.routes
    ensures c' == AddRoute(c, DeleteMethod, path, h, filters)
  {
    AddRoute(c, DeleteMethod, path, h, filters)
  }

  function Options(c: Cobalt, path: string, h: Handler, filters: seq<Filter>): (c': Cobalt)
    requires RouteKey(OptionsMethod, path) !in c.routes
    ensures c' == AddRoute(c, OptionsMethod, path, h, filters)
  {
    AddRoute(c, OptionsMethod, path, h, filters)
  }

  function Head(c: Cobalt, path: string, h: Handler, filters: seq<Filter>): (c': Cobalt)
    requires RouteKey(HeadMethod, path) !in c.routes
    ensures c' == AddRoute(c, HeadMethod, path, h, filters)
  {
    AddRoute(c, HeadMethod, path, h, filters)
  }

  // ---------------------------------------------------------------------------
  // The planned order of stages for one route

  /** Number of stages a request on `r` passes through when nothing halts or panics. */
  function PlanLength(c: Cobalt, r: Route): nat {
    |c.prefilters| + |r.filters| + |c.postfilters| + 2
  }

  /**
    The `k`-th planned stage: the request id, the global pre-filters, the
    route filters, the handler, then the global post-filters.
   */
  function Planned(c: Cobalt, r: Route, k: nat): Stage
    requires k < PlanLength(c, r)
  {
    var p, f := |c.prefilters|, |r.filters|;
    if k == 0 then SetRequestId
    else if k <= p then Prefilter(k - 1)
    else if k <= p + f then RouteFilter(k - 1 - p)
    else if k == p + f + 1 then RouteHandler
    else Postfilter(k - p - f - 2)
  }

  /** `steps` are the planned stages from position `offset` on. */
  predicate OnPlan(c: Cobalt, r: Route, offset: nat, steps: seq<Step>) {
    && offset + |steps| <= PlanLength(c, r)
    && forall k :: offset <= k < offset + |steps| ==> steps[k - offset].stage == Planned(c, r, k)
  }

  /** The context a request id stage leaves: the id header appended to the response. */
  function WithRequestId(ctx: Context): (r: Context)
    ensures Extends(ctx, r)
    ensures Added(ctx, r) == [SetHeader(RequestId, ctx.id)]
    ensures r.(response := ctx.response) == ctx
  {
    var r := ctx.(response := ctx.response + [SetHeader(RequestId, ctx.id)]);
    assert Added(ctx, r) == [SetHeader(RequestId, ctx.id)];
    r
  }

  /** `st` is what its stage's code does to the context it was given. */
  predicate StepRuns(c: Cobalt, r: Route, st: Step) {
    match st.stage
    case SetRequestId => st.after == WithRequestId(st.before) && st.signal == Continue
    case Prefilter(i) => i < |c.prefilters| && FilterRan(c.prefilters[i], st)
    case RouteFilter(i) => i < |r.filters| && FilterRan(r.filters[i], st)
    case RouteHandler => HandlerRan(r.handler, st)
    case Postfilter(i) => i < |c.postfilters| && HandlerRan(c.postfilters[i], st)
    case ServerError => c.serverError.Some? && HandlerRan(c.serverError.value, st)
    case NotFound => false
  }

  predicate AllRun(c: Cobalt, r: Route, steps: seq<Step>) {
    forall k {:trigger StepRuns(c, r, steps[k])} :: 0 <= k < |steps| ==> StepRuns(c, r, steps[k])
  }

  // ---------------------------------------------------------------------------
  // Gluing segments of a trace

  /**
    `f` ran the planned stages from position `offset` on, each by its own
    code, starting from `start`, every step but the last going on.
   */
  predicate Segment(c: Cobalt, r: Route, offset: nat, start: Context, f: Flow) {
    && OnPlan(c, r, offset, f.steps)
    && AllRun(c, r, f.steps)
    && ContinuedUntilLast(f.steps)
    && Threaded(start, f.steps, f.ctx)
    && EndsWith(f)
  }

  /** A segment that went on, followed by the segment from where it stopped, is one segment. */
  lemma GlueSegments(c: Cobalt, r: Route, offset: nat, start: Context, a: Flow, b: Flow)
    requires Segment(c, r, offset, start, a) && a.signal == Continue
    requires Segment(c, r, offset + |a.steps|, a.ctx, b)
    ensures Segment(c, r, offset, start, Flow(b.ctx, a.steps + b.steps, b.signal))
  {
    var s := a.steps + b.steps;
    assert forall k :: 0 <= k < |a.steps| ==> s[k] == a.steps[k];
    assert forall k :: |a.steps| <= k < |s| ==> s[k] == b.steps[k - |a.steps|];
    ThreadedAppend(start, a.steps, a.ctx, b.steps, b.ctx);
    if |b.steps| == 0 {
      assert s == a.steps;
    }
  }

  /** The global pre-filters, as the segment after the request id. */
  function RunPrefilters(c: Cobalt, r: Route, ctx: Context): (f: Flow)
    ensures Segment(c, r, 1, ctx, f)
    ensures f.signal == Continue ==> |f.steps| == |c.prefilters|
  {
    RunFilters(c.prefilters, true, 0, ctx)
  }

  /** The route's own filters, as the segment after the global pre-filters. */
  function RunRouteFilters(c: Cobalt, r: Route, ctx: Context): (f: Flow)
    ensures Segment(c, r, |c.prefilters| + 1, ctx, f)
    ensures f.signal == Continue ==> |f.steps| == |r.filters|
  {
    RunFilters(r.filters, false, 0, ctx)
  }

  /** The global post-filters, as the segment after the handler. */
  function RunPostfilterChain(c: Cobalt, r: Route, ctx: Context): (f: Flow)
    ensures Segment(c, r, |c.prefilters| + |r.filters| + 2, ctx, f)
    ensures f.signal == Continue ==> |f.steps| == |c.postfilters|
  {
    RunPostfilters(c.postfilters, 0, ctx)
  }

  /** The route handler's step on its own, at its planned position. */
  function RunRouteHandler(c: Cobalt, r: Route, ctx: Context): (f: Flow)
    ensures Segment(c, r, |c.prefilters| + |r.filters| + 1, ctx, f)
    ensures |f.steps| == 1
  {
    var (hc, ho) := r.handler(ctx);
    var f := Flow(hc, [Step(RouteHandler, ctx, hc, SignalOf(ho))], SignalOf(ho));
    assert StepRuns(c, r, f.steps[0]);
    f
  }

  /** `a`, then, if it went on, `b` from where it stopped. */
  function Then(c: Cobalt, r: Route, offset: nat, start: Context, a: Flow, b: Flow): (f: Flow)
    requires Segment(c, r, offset, start, a) && a.signal == Continue
    requires Segment(c, r, offset + |a.steps|, a.ctx, b)
    ensures Segment(c, r, offset, start, f)
    ensures f.signal == b.signal && |f.steps| == |a.steps| + |b.steps|
  {
    GlueSegments(c, r, offset, start, a, b);
    Flow(b.ctx, a.steps + b.steps, b.signal)
  }

  // ---------------------------------------------------------------------------
  // The route closure

  /** The handler, then (unless it panicked) the global post-filters. */
  function RunHandler(c: Cobalt, r: Route, ctx: Context): (f: Flow)
    ensures Segment(c, r, |c.prefilters| + |r.filters| + 1, ctx, f)
    ensures f.signal == Continue ==> |f.steps| == |c.postfilters| + 1
  {
    var handled := RunRouteHandler(c, r, ctx);
    if handled.signal != Continue then handled
    else Then(c, r, |c.prefilters| + |r.filters| + 1, ctx, handled, RunPostfilterChain(c, r, handled.ctx))
  }

  /** The route filters, then (unless one stopped the request) the handler and post-filters. */
  function RunRoute(c: Cobalt, r: Route, ctx: Context): (f: Flow)
    ensures Segment(c, r, |c.prefilters| + 1, ctx, f)
    ensures f.signal == Continue ==> |f.steps| == |r.filters| + |c.postfilters| + 1
  {
    var rf := RunRouteFilters(c, r, ctx);
    if rf.signal != Continue then rf
    else Then(c, r, |c.prefilters| + 1, ctx, rf, RunHandler(c, r, rf.ctx))
  }

  /**
    The body of the closure inside the recover boundary, after the request id:
    global pre-filters, route filters, handler, post-filters.
   */
  function RunChain(c: Cobalt, r: Route, ctx: Context): (f: Flow)
    ensures Segment(c, r, 1, ctx, f)
    ensures f.signal == Continue ==> 1 + |f.steps| == PlanLength(c, r)
  {
    var pre := RunPrefilters(c, r, ctx);
    if pre.signal != Continue then pre
    else Then(c, r, 1, ctx, pre, RunRoute(c, r, pre.ctx))
  }

  /** The completion log line: correlation id and status from the context, the rest from the request. */
  datatype Record = Record(id: string, status: int, verb: string, uri: string, remoteAddr: string)

  function CompletionRecord(ctx: Context, req: Request): Record {
    Record(ctx.id, ctx.status, req.verb, req.uri, req.remoteAddr)
  }

  /**
    What one dispatched request did. `steps` ran inside the recover boundary;
    `recovery` is the server-error handler's run after a panic, if any;
    `record` is the completion record, if one was logged; `escaped` says a
    panic left the boundary.
   */
  datatype Served = Served(
    steps: seq<Step>,
    recovery: Option<Step>,
    ctx: Context,
    record: Option<Record>,
    escaped: bool)

  /** The request id stage on its own, as the first planned stage. */
  lemma RequestIdStep(c: Cobalt, r: Route, initial: Context, first: Flow)
    requires first == Flow(WithRequestId(initial), [Step(SetRequestId, initial, WithRequestId(initial), Continue)], Continue)
    ensures Segment(c, r, 0, initial, first)
  {
  }

  /**
    The recover boundary around a finished `body` flow: after a panic the
    server-error handler, if configured, runs on the same context and no
    completion record is logged; otherwise the record is logged.
   */
  function Guard(c: Cobalt, body: Flow, req: Request): (s: Served)
    ensures s.steps == body.steps
    ensures s.recovery.Some? <==> body.signal == Panic && c.serverError.Some?
    ensures s.recovery.Some? ==>
      && s.recovery.value.stage == ServerError
      && s.recovery.value.before == body.ctx
      && HandlerRan(c.serverError.value, s.recovery.value)
      && s.ctx == s.recovery.value.after
    ensures s.recovery.None? ==> s.ctx == body.ctx
    ensures s.record.Some? <==> s.recovery.None?
    ensures s.record.Some? ==> s.record.value == Record(s.ctx.id, s.ctx.status, req.verb, req.uri, req.remoteAddr)
    ensures s.escaped <==> s.recovery.Some? && s.recovery.value.signal == Panic
  {
    if body.signal == Panic && c.serverError.Some? then
      var (after, o) := c.serverError.value(body.ctx);
      Served(body.steps, Some(Step(ServerError, body.ctx, after, SignalOf(o))), after, None, o == Panicked)
    else
      Served(body.steps, None, body.ctx, Some(CompletionRecord(body.ctx, req)), false)
  }

  /** The request-id stage followed by the chain: everything inside the recover boundary. */
  function RunBoundary(c: Cobalt, r: Route, initial: Context): (f: Flow)
    ensures |f.steps| > 0
    ensures f.steps[0].stage == SetRequestId && f.steps[0].before == initial
    ensures OnPlan(c, r, 0, f.steps)
    ensures AllRun(c, r, f.steps)
    ensures ContinuedUntilLast(f.steps)
    ensures Threaded(initial, f.steps, f.ctx)
    ensures f.steps[|f.steps| - 1].after == f.ctx
    ensures f.signal == f.steps[|f.steps| - 1].signal
    ensures f.signal == Continue ==> |f.steps| == PlanLength(c, r)
  {
    var tagged := WithRequestId(initial);
    var first := Flow(tagged, [Step(SetRequestId, initial, tagged, Continue)], Continue);
    RequestIdStep(c, r, initial, first);
    var f := Then(c, r, 0, initial, first, RunChain(c, r, tagged));
    assert f.steps[0] == first.steps[0];
    f
  }

  /**
    What the route closure promises about a served request `s` that started
    from `initial`: request id first on `initial`, the planned stages in order with
    halts and panics ending the boundary, recovery by the server-error handler,
    and the completion record.
   */
  predicate Behaves(c: Cobalt, r: Route, req: Request, initial: Context, s: Served) {
    && |s.steps| > 0
    && s.steps[0].stage == SetRequestId
    && s.steps[0].before == initial
    && OnPlan(c, r, 0, s.steps)
    && AllRun(c, r, s.steps)
    && ContinuedUntilLast(s.steps)
    && (s.steps[|s.steps| - 1].signal == Continue ==> |s.steps| == PlanLength(c, r))
    && (s.recovery.Some? <==> s.steps[|s.steps| - 1].signal == Panic && c.serverError.Some?)
    && (s.recovery.Some? ==>
          && s.recovery.value.stage == ServerError
          && s.recovery.value.before == s.steps[|s.steps| - 1].after
          && StepRuns(c, r, s.recovery.value)
          && s.ctx == s.recovery.value.after)
    && Threaded(initial, s.steps, s.steps[|s.steps| - 1].after)
    && (s.recovery.None? ==> s.ctx == s.steps[|s.steps| - 1].after)
    && (s.record.Some? <==> s.recovery.None?)
    && (s.record.Some? ==> s.record.value == Record(s.ctx.id, s.ctx.status, req.verb, req.uri, req.remoteAddr))
    && (s.escaped <==> s.recovery.Some? && s.recovery.value.signal == Panic)
  }

  /**
    The closure `addroute` registers for `r`, run on a request the router
    matched with `params`; `id` is the fresh request identity.
   */
  function Dispatch(c: Cobalt, r: Route, req: Request, params: map<string, string>, id: string): (s: Served)
    ensures Behaves(c, r, req, NewContext(id, req, Some(params), c.coder), s)
  {
    var initial := NewContext(id, req, Some(params), c.coder);
    var body := RunBoundary(c, r, initial);
    Guard(c, body, req)
  }

  /** The router's answer for a request: a registered route and its parameters, or no match. */
  datatype Resolution = Matched(key: RouteKey, params: map<string, string>) | Unmatched

  /** What serving one request did. */
  datatype Reply =
    | Dispatched(served: Served)   // a route closure ran
    | NotFoundHandled(step: Step)  // the installed not-found handler ran (a panic there is not recovered)
    | RouterNotFound               // the router's own default reply

  /**
    `ServeHTTP`: hands the request to the router, whose match is `res`. The
    not-found handler gets a new context with no parameters and nothing else
    runs: no filter, no request id.
   */
  function ServeHTTP(c: Cobalt, req: Request, res: Resolution, id: string): (rep: Reply)
    requires res.Matched? ==> res.key in c.routes
    ensures res.Matched? ==> rep.Dispatched?
    ensures res.Matched? ==> |rep.served.steps| > 0 && rep.served.steps[0].before == NewContext(id, req, Some(res.params), c.coder)
    ensures res.Matched? ==> Behaves(c, c.routes[res.key], req, NewContext(id, req, Some(res.params), c.coder), rep.served)
    ensures res.Unmatched? && c.notFound.Some? ==>
      && rep.NotFoundHandled?
      && rep.step.stage == NotFound
      && rep.step.before == NewContext(id, req, None, c.coder)
      && HandlerRan(c.notFound.value, rep.step)
    ensures res.Unmatched? && c.notFound.None? ==> rep.RouterNotFound?
  {
    match res
    case Matched(key, params) => Dispatched(Dispatch(c, c.routes[key], req, params, id))
    case Unmatched =>
      match c.notFound
      case None => RouterNotFound
      case Some(h) =>
        var initial := NewContext(id, req, None, c.coder);
        var (after, o) := h(initial);
        NotFoundHandled(Step(NotFound, initial, after, SignalOf(o)))
  }
}

=== FILE: context.dfy ===
/**
  The per-request `Context` of context.go: identity, request, scratch data,
  route parameters, the shared coder, the recorded status and the response
  writer (kept as an event log).
 */
module RequestContext {

  import opened Wrappers
  import opened Response
  import Decimal

  const StatusOK: int := 200
  const CachePrefix: string := "private, must-revalidate, max-age="

  /** The parts of the inbound request the model keeps: what the completion record prints. */
  datatype Request = Request(verb: string, uri: string, remoteAddr: string)

  /** The shared encode/decode strategy; encoding itself is recorded as a `WriteBody(Encoded(v))` event. */
  datatype Coder = Coder(contentType: string)

  /** `params` is `None` for Go's nil map, which the not-found path passes. */
  datatype Context = Context(
    id: string,
    request: Request,
    data: map<string, Value>,
    params: Option<map<string, string>>,
    coder: Coder,
    status: int,
    response: seq<Event>)

  /** `after` only appended to the response log of `before`. */
  predicate Extends(before: Context, after: Context) {
    |before.response| <= |after.response| && after.response[..|before.response|] == before.response
  }

  /** The events `after` added to the log of `before`. */
  function Added(before: Context, after: Context): seq<Event>
    requires Extends(before, after)
  {
    after.response[|before.response|..]
  }

  /** A fresh context; `id` stands for the UUID the source generates. */
  function NewContext(id: string, req: Request, p: Option<map<string, string>>, coder: Coder): (c: Context)
    ensures c.id == id && c.request == req && c.coder == coder
    ensures c.params == p
    ensures forall k :: GetData(c, k) == Nil
    ensures c.status == 0
    ensures c.response == []
  {
    Context(id, req, map[], p, coder, 0, [])
  }

  /** The route parameter `key`, or "" when it was not matched (or there are no parameters at all). */
  function RouteValue(c: Context, key: string): (v: string)
    ensures c.params.Some? && key in c.params.value ==> v == c.params.value[key]
    ensures c.params.None? || key !in c.params.value ==> v == ""
  {
    match c.params
    case None => ""
    case Some(p) => if key in p then p[key] else ""
  }

  /** All route parameters, exactly as the router passed them. */
  function AllRouteValues(c: Context): (p: Option<map<string, string>>)
    ensures p.None? <==> c.params.None?
    ensures p.Some? ==> p.value.Keys == c.params.value.Keys
    ensures forall key :: p.Some? && key in p.value ==> RouteValue(c, key) == p.value[key]
    ensures forall key :: p.None? || key !in p.value ==> RouteValue(c, key) == ""
  {
    c.params
  }

  /** The scratch value under `key`; `Nil` when absent. */
  function GetData(c: Context, key: string): (v: Value)
    ensures key !in c.data ==> v == Nil
    ensures key in c.data ==> v == c.data[key]
  {
    if key in c.data then c.data[key] else Nil
  }

  /** Stores `value` under `key`; nothing else in the context changes. */
  function SetData(c: Context, key: string, value: Value): (r: Context)
    ensures GetData(r, key) == value
    ensures forall k :: k != key ==> GetData(r, k) == GetData(c, k)
    ensures r.(data := c.data) == c
  {
    c.(data := c.data[key := value])
  }

  /** The status a helper writes: 0 means 200. */
  function EffectiveStatus(status: int): (s: int)
    ensures s != 0
    ensures status != 0 ==> s == status
    ensures status == 0 ==> s == StatusOK
  {
    if status == 0 then StatusOK else status
  }

  /** The `Cache-control` value for a positive lifetime. */
  function CacheControlValue(seconds: int): string
    requires seconds > 0
  {
    CachePrefix + Decimal.Show(seconds)
  }

  /** The lifetime a `Cache-control` value grants, if it has the shape the helpers write. */
  function MaxAge(text: string): Option<nat> {
    if CachePrefix <= text then Decimal.Parse(text[|CachePrefix|..]) else None
  }

  lemma MaxAgeOfCacheControl(seconds: int)
    requires seconds > 0
    ensures MaxAge(CacheControlValue(seconds)) == Some(seconds)
  {
    var v := CacheControlValue(seconds);
    assert v[|CachePrefix|..] == Decimal.Show(seconds);
    Decimal.ParseShow(seconds);
  }

  /** The properties every encoded reply satisfies; shared by all `Serve*` helpers. */
  ghost predicate EncodedReply(c: Context, r: Context, val: Value, status: int, seconds: int)
  {
    && Extends(c, r)
    && r.(response := c.response, status := c.status) == c
    && r.status == EffectiveStatus(status)
    && Statuses(Added(c, r)) == [r.status]
    && Header(Added(c, r), ContentType) == Some(c.coder.contentType)
    && (Header(Added(c, r), CacheControl).Some? <==> seconds > 0)
    && (seconds > 0 ==> Header(Added(c, r), CacheControl) == Some(CacheControlValue(seconds)))
    && (seconds > 0 ==> MaxAge(Header(Added(c, r), CacheControl).value) == Some(seconds))
    && (forall key :: key != ContentType && key != CacheControl ==> Header(Added(c, r), key).None?)
    && Bodies(Added(c, r)) == (if val == Nil then [] else [Encoded(val)])
    && HeadersBeforeStatus(Added(c, r))
    && BodyAfterStatus(Added(c, r))
  }

  function CacheHeaders(seconds: int): (hs: seq<Event>)
    ensures |hs| <= 1
    ensures forall i :: 0 <= i < |hs| ==> hs[i].SetHeader?
  {
    if seconds > 0 then [SetHeader(CacheControl, CacheControlValue(seconds))] else []
  }

  function EncodedBody(val: Value): (bs: seq<Event>)
    ensures |bs| <= 1
    ensures forall i :: 0 <= i < |bs| ==> bs[i].WriteBody?
  {
    if val != Nil then [WriteBody(Encoded(val))] else []
  }

  /**
    Content type, optional cache header, the status (0 meaning 200), then the
    encoded value unless it is nil; the written status is recorded.
   */
  function ServeEncoded(c: Context, val: Value, status: int, seconds: int): (r: Context)
    ensures EncodedReply(c, r, val, status, seconds)
  {
    var code := EffectiveStatus(status);
    var added := [SetHeader(ContentType, c.coder.contentType)] + CacheHeaders(seconds)
                 + [WriteHeader(code)] + EncodedBody(val);
    var r := c.(response := c.response + added, status := code);
    assert Added(c, r) == added;
    EncodedAddedFacts(c, val, code, seconds, added);
    r
  }

  lemma EncodedAddedFacts(c: Context, val: Value, code: int, seconds: int, added: seq<Event>)
    requires added == [SetHeader(ContentType, c.coder.contentType)] + CacheHeaders(seconds)
                      + [WriteHeader(code)] + EncodedBody(val)
    ensures Statuses(added) == [code]
    ensures Header(added, ContentType) == Some(c.coder.contentType)
    ensures Header(added, CacheControl).Some? <==> seconds > 0
    ensures seconds > 0 ==> Header(added, CacheControl) == Some(CacheControlValue(seconds))
    ensures seconds > 0 ==> MaxAge(Header(added, CacheControl).value) == Some(seconds)
    ensures forall key :: key != ContentType && key != CacheControl ==> Header(added, key).None?
    ensures Bodies(added) == (if val == Nil then [] else [Encoded(val)])
    ensures HeadersBeforeStatus(added)
    ensures BodyAfterStatus(added)
  {
    var hs := [SetHeader(ContentType, c.coder.contentType)] + CacheHeaders(seconds);
    var tail := [WriteHeader(code)] + EncodedBody(val);
    assert added == hs + tail;
    HeaderOnlyFacts(c.coder.contentType, seconds, hs);
    TailFacts(code, val, tail);
    StatusesAppend(hs, tail);
    BodiesAppend(hs, tail);
    HeaderAppend(hs, tail, ContentType);
    HeaderAppend(hs, tail, CacheControl);
    forall key | key != ContentType && key != CacheControl
      ensures Header(added, key).None?
    {
      HeaderAppend(hs, tail, key);
    }
    OrderFacts(hs, tail);
  }

  /** The header part of an encoded reply: only `SetHeader` events. */
  lemma HeaderOnlyFacts(contentType: string, seconds: int, hs: seq<Event>)
    requires hs == [SetHeader(ContentType, contentType)] + CacheHeaders(seconds)
    ensures Statuses(hs) == [] && Bodies(hs) == []
    ensures forall i :: 0 <= i < |hs| ==> hs[i].SetHeader?
    ensures Header(hs, ContentType) == Some(contentType)
    ensures Header(hs, CacheControl).Some? <==> seconds > 0
    ensures seconds > 0 ==> Header(hs, CacheControl) == Some(CacheControlValue(seconds))
    ensures seconds > 0 ==> MaxAge(Header(hs, CacheControl).value) == Some(seconds)
    ensures forall key :: key != ContentType && key != CacheControl ==> Header(hs, key).None?
  {
    if seconds > 0 {
      CachedHeaderFacts(contentType, seconds, hs);
    } else {
      UncachedHeaderFacts(contentType, hs);
    }
  }

  lemma CachedHeaderFacts(contentType: string, seconds: int, hs: seq<Event>)
    requires seconds > 0
    requires hs == [SetHeader(ContentType, contentType), SetHeader(CacheControl, CacheControlValue(seconds))]
    ensures Statuses(hs) == [] && Bodies(hs) == []
    ensures Header(hs, ContentType) == Some(contentType)
    ensures Header(hs, CacheControl) == Some(CacheControlValue(seconds))
    ensures MaxAge(CacheControlValue(seconds)) == Some(seconds)
    ensures forall key :: key != ContentType && key != CacheControl ==> Header(hs, key).None?
  {
    assert hs[1..][1..] == [];
    assert hs[..1] == [SetHeader(ContentType, contentType)];
    assert ContentType != CacheControl by { assert ContentType[7] != CacheControl[7]; }
    MaxAgeOfCacheControl(seconds);
  }

  lemma UncachedHeaderFacts(contentType: string, hs: seq<Event>)
    requires hs == [SetHeader(ContentType, contentType)]
    ensures Statuses(hs) == [] && Bodies(hs) == []
    ensures Header(hs, ContentType) == Some(contentType)
    ensures Header(hs, CacheControl).None?
    ensures forall key :: key != ContentType ==> Header(hs, key).None?
  {
    assert hs[1..] == [];
    assert hs[..0] == [];
    assert ContentType != CacheControl by { assert ContentType[7] != CacheControl[7]; }
  }

  /** The part of an encoded reply from the status on: one status, then at most the body. */
  lemma TailFacts(code: int, val: Value, tail: seq<Event>)
    requires tail == [WriteHeader(code)] + EncodedBody(val)
    ensures Statuses(tail) == [code]
    ensures Bodies(tail) == (if val == Nil then [] else [Encoded(val)])
    ensures forall key :: Header(tail, key).None?
    ensures |tail| > 0 && tail[0].WriteHeader?
    ensures forall i :: 0 <= i < |tail| ==> !tail[i].SetHeader?
    ensures forall i :: 1 <= i < |tail| ==> !tail[i].WriteHeader?
  {
    StatusesAppend([WriteHeader(code)], EncodedBody(val));
    BodiesAppend([WriteHeader(code)], EncodedBody(val));
  }

  /** Headers followed by a status-led tail keep headers before the status and the body after it. */
  lemma OrderFacts(hs: seq<Event>, tail: seq<Event>)
    requires forall i :: 0 <= i < |hs| ==> hs[i].SetHeader?
    requires |tail| > 0 && tail[0].WriteHeader?
    requires forall i :: 0 <= i < |tail| ==> !tail[i].SetHeader?
    requires forall i :: 1 <= i < |tail| ==> !tail[i].WriteHeader?
    ensures HeadersBeforeStatus(hs + tail)
    ensures BodyAfterStatus(hs + tail)
  {
    var log := hs + tail;
    forall i, j | 0 <= i < j < |log| && log[i].WriteHeader?
      ensures !log[j].SetHeader?
    {
      assert i >= |hs|;
      assert log[j] == tail[j - |hs|];
    }
    forall i, j | 0 <= i < j < |log| && log[j].WriteHeader?
      ensures !log[i].WriteBody?
    {
      assert j == |hs|;
      assert log[i] == hs[i];
    }
  }

  /** `Serve`: status 200, never a cache header. */
  function Serve(c: Context, val: Value): (r: Context)
    ensures EncodedReply(c, r, val, StatusOK, 0)
    ensures r.status == StatusOK
    ensures Header(Added(c, r), CacheControl).None?
  {
    ServeEncoded(c, val, StatusOK, 0)
  }

  /** `ServeWithStatus`: the given status (0 meaning 200), no cache header. */
  function ServeWithStatus(c: Context, val: Value, status: int): (r: Context)
    ensures EncodedReply(c, r, val, status, 0)
    ensures Header(Added(c, r), CacheControl).None?
  {
    ServeEncoded(c, val, status, 0)
  }

  /** `ServeCachedWithStatus`: the given status and a cache lifetime of `seconds` when positive. */
  function ServeCachedWithStatus(c: Context, val: Value, status: int, seconds: int): (r: Context)
    ensures EncodedReply(c, r, val, status, seconds)
  {
    ServeEncoded(c, val, status, seconds)
  }

  /**
    `Error` as written: the status argument lands in the `seconds` slot, so the
    reply is always 200 and the intended status becomes the cache lifetime.
   */
  function Error(c: Context, body: Value, status: int): (r: Context)
    ensures EncodedReply(c, r, body, 0, status)
    ensures Statuses(Added(c, r)) == [StatusOK]
    ensures status > 0 ==> MaxAge(Header(Added(c, r), CacheControl).value) == Some(status)
  {
    ServeEncoded(c, body, 0, status)
  }

  /** `Error` as its name and comment intend: the status is the reply's status and nothing is cached. */
  function ErrorIntended(c: Context, body: Value, status: int): (r: Context)
    ensures EncodedReply(c, r, body, status, 0)
    ensures status != 0 ==> Statuses(Added(c, r)) == [status]
    ensures Header(Added(c, r), CacheControl).None?
  {
    ServeEncoded(c, body, status, 0)
  }

  /** A 404 error reported through `Error` reaches the client as 200 with a 404-second cache lifetime. */
  lemma ErrorLosesStatus(c: Context)
    ensures var r := Error(c, Text("not found"), 404);
      Statuses(Added(c, r)) == [200] && MaxAge(Header(Added(c, r), CacheControl).value) == Some(404)
    ensures var r := ErrorIntended(c, Text("not found"), 404);
      Statuses(Added(c, r)) == [404] && Header(Added(c, r), CacheControl).None?
  {
  }

  /** `ServeStatus`: status only (0 meaning 200), recorded; no header, no body. */
  function ServeStatus(c: Context, status: int): (r: Context)
    ensures Extends(c, r)
    ensures r.(response := c.response, status := c.status) == c
    ensures r.status == EffectiveStatus(status)
    ensures Statuses(Added(c, r)) == [r.status]
    ensures Bodies(Added(c, r)) == []
    ensures forall i :: 0 <= i < |Added(c, r)| ==> !Added(c, r)[i].SetHeader?
  {
    var code := EffectiveStatus(status);
    var r := c.(response := c.response + [WriteHeader(code)], status := code);
    assert Added(c, r) == [WriteHeader(code)];
    r
  }

  /**
    `ServeResponse`: optional content type, the status verbatim, then the bytes
    verbatim; the recorded status is left alone.
   */
  function ServeResponse(c: Context, bytes: seq<byte>, status: int, contentType: string): (r: Context)
    ensures Extends(c, r)
    ensures r.(response := c.response) == c
    ensures Statuses(Added(c, r)) == [status]
    ensures Bodies(Added(c, r)) == [Raw(bytes)]
    ensures Header(Added(c, r), ContentType) == if contentType == "" then None else Some(contentType)
    ensures forall key :: key != ContentType ==> Header(Added(c, r), key).None?
    ensures HeadersBeforeStatus(Added(c, r))
    ensures BodyAfterStatus(Added(c, r))
  {
    var h := if contentType != "" then [SetHeader(ContentType, contentType)] else [];
    var added := h + [WriteHeader(status), WriteBody(Raw(bytes))];
    var r := c.(response := c.response + added);
    assert Added(c, r) == added;
    RawAddedFacts(h, status, bytes, contentType, added);
    r
  }

  lemma RawAddedFacts(h: seq<Event>, status: int, bytes: seq<byte>, contentType: string, added: seq<Event>)
    requires h == if contentType != "" then [SetHeader(ContentType, contentType)] else []
    requires added == h + [WriteHeader(status), WriteBody(Raw(bytes))]
    ensures Statuses(added) == [status]
    ensures Bodies(added) == [Raw(bytes)]
    ensures Header(added, ContentType) == if contentType == "" then None else Some(contentType)
    ensures forall key :: key != ContentType ==> Header(added, key).None?
    ensures HeadersBeforeStatus(added)
    ensures BodyAfterStatus(added)
  {
    var t := [WriteHeader(status), WriteBody(Raw(bytes))];
    StatusesAppend(h, t);
    BodiesAppend(h, t);
    HeaderAppend(h, t, ContentType);
    assert added[|h|] == WriteHeader(status);
  }
}

=== FILE: decimal.dfy ===
/**
  Decimal rendering of non-negative integers, as Go's `fmt.Sprintf("%d", n)`
  produces it for the `max-age` directive, together with its inverse.
 */
module Decimal {

  import opened Wrappers

  predicate IsDigit(ch: char) {
    '0' <= ch <= '9'
  }

  predicate AllDigits(s: string) {
    forall i :: 0 <= i < |s| ==> IsDigit(s[i])
  }

  function DigitChar(d: nat): (ch: char)
    requires d < 10
    ensures IsDigit(ch)
    ensures ch as int - '0' as int == d
  {
    ('0' as int + d) as char
  }

  function DigitValue(ch: char): (d: nat)
    requires IsDigit(ch)
    ensures d < 10
  {
    ch as int - '0' as int
  }

  /** The shortest decimal numeral of `n`: digits only, no leading zero. */
  function Show(n: nat): (s: string)
    ensures |s| > 0
    ensures AllDigits(s)
    ensures |s| > 1 ==> s[0] != '0'
    decreases n
  {
    if n < 10 then [DigitChar(n)] else Show(n / 10) + [DigitChar(n % 10)]
  }

  /** The value of a numeral, most significant digit first; the empty numeral is 0. */
  function Value(s: string): nat
    requires AllDigits(s)
    decreases |s|
  {
    if |s| == 0 then 0 else Value(s[..|s| - 1]) * 10 + DigitValue(s[|s| - 1])
  }

  /** Parses a numeral; `None` for the empty string or any non-digit. */
  function Parse(s: string): (r: Option<nat>)
    ensures r.Some? <==> |s| > 0 && AllDigits(s)
  {
    if |s| > 0 && AllDigits(s) then Some(Value(s)) else None
  }

  /** Rendering then parsing gives the number back. */
  lemma {:induction false} ParseShow(n: nat)
    ensures Parse(Show(n)) == Some(n)
    decreases n
  {
    var s := Show(n);
    if n < 10 {
      assert s == [DigitChar(n)];
      assert s[..0] == [];
      assert Value(s) == Value(s[..0]) * 10 + DigitValue(s[0]);
    } else {
      ParseShow(n / 10);
      var t := Show(n / 10);
      assert s == t + [DigitChar(n % 10)];
      assert s[..|s| - 1] == t;
    }
  }

  /** Distinct numbers get distinct numerals. */
  lemma ShowInjective(m: nat, n: nat)
    requires Show(m) == Show(n)
    ensures m == n
  {
    ParseShow(m);
    ParseShow(n);
  }
}

=== FILE: guarantees.dfy ===
/**
  The promises cobalt.go makes about one dispatched request, each proved of
  every served request that meets the route closure's contract (`Behaves`),
  which `Dispatch` does: request id first, filters in
  order with `false` stopping everything, the handler exactly when every
  filter passed, post-filters only after the handler, panics handed to the
  server-error handler, and the completion record.
 */
module DispatchGuarantees {

  import opened Wrappers
  import opened Response
  import opened RequestContext
  import opened Pipeline
  import opened Dispatcher
  import opened DispatchProperties

  /**
    The request id header is set first, on the context the closure made, to
    that context's id; the next stage is handed exactly that context, and no
    later stage sets the id again.
   */
  lemma RequestIdSetFirst(c: Cobalt, r: Route, req: Request, initial: Context, s: Served)
    requires Behaves(c, r, req, initial, s)
    ensures s.steps[0].stage == SetRequestId && s.steps[0].before == initial
    ensures s.steps[0].after.response == initial.response + [SetHeader(RequestId, initial.id)]
    ensures Header(s.steps[0].after.response, RequestId) == Some(initial.id)
    ensures |s.steps| > 1 ==> s.steps[1].before == s.steps[0].after
    ensures forall k :: 0 < k < |s.steps| ==> s.steps[k].stage != SetRequestId
  {
    assert StepRuns(c, r, s.steps[0]);
    HeaderAppend(initial.response, [SetHeader(RequestId, initial.id)], RequestId);
    forall k | 0 < k < |s.steps|
      ensures s.steps[k].stage != SetRequestId
    {
      assert s.steps[k].stage == Planned(c, r, k);
    }
  }

  /** A dispatched request starts from an empty response, so the id header is the first thing written. */
  lemma DispatchWritesRequestIdFirst(c: Cobalt, r: Route, req: Request, params: map<string, string>, id: string)
    ensures var s := Dispatch(c, r, req, params, id);
      && s.steps[0].before.response == []
      && s.steps[0].after.response == [SetHeader(RequestId, id)]
      && (|s.steps| > 1 ==> Header(s.steps[1].before.response, RequestId) == Some(id))
  {
    var initial := NewContext(id, req, Some(params), c.coder);
    RequestIdSetFirst(c, r, req, initial, Dispatch(c, r, req, params, id));
  }

  /**
    Stage `k` of the boundary is the `k`-th planned stage, run by that stage's
    code, and every stage before it let the request go on: global pre-filters
    in registration order, then route filters, handler and post-filters.
   */
  lemma StagesRunInPlanOrder(c: Cobalt, r: Route, req: Request, initial: Context, s: Served, k: nat)
    requires Behaves(c, r, req, initial, s)
    requires k < |s.steps|
    ensures s.steps[k].stage == Planned(c, r, k)
    ensures StepRuns(c, r, s.steps[k])
    ensures forall j :: 0 <= j < k ==> s.steps[j].signal == Continue
    ensures 1 <= k <= |c.prefilters| ==> FilterRan(c.prefilters[k - 1], s.steps[k])
    ensures |c.prefilters| < k <= |c.prefilters| + |r.filters| ==>
              FilterRan(r.filters[k - 1 - |c.prefilters|], s.steps[k])
  {
    assert StepRuns(c, r, s.steps[k]);
  }

  /** A filter returning `false` ends the request: nothing runs after it, and the record is logged. */
  lemma FalseFilterHaltsRequest(c: Cobalt, r: Route, req: Request, initial: Context, s: Served, k: nat)
    requires Behaves(c, r, req, initial, s)
    requires k < |Trace(s)| && Trace(s)[k].signal == Halt
    ensures k == |Trace(s)| - 1
    ensures Trace(s)[k].stage.Prefilter? || Trace(s)[k].stage.RouteFilter?
    ensures forall j :: 0 <= j < |Trace(s)| ==> !Trace(s)[j].stage.RouteHandler? && !Trace(s)[j].stage.Postfilter?
    ensures s.recovery.None?
    ensures s.record == Some(Record(s.ctx.id, s.ctx.status, req.verb, req.uri, req.remoteAddr))
  {
    var n := |s.steps|;
    assert k < n;
    assert Trace(s)[k] == s.steps[k];
    assert StepRuns(c, r, s.steps[k]);
    assert k == n - 1;
    assert s.steps[k].stage == Planned(c, r, k);
    assert k <= |c.prefilters| + |r.filters| && k != 0;
    forall j | 0 <= j < |Trace(s)|
      ensures !Trace(s)[j].stage.RouteHandler? && !Trace(s)[j].stage.Postfilter?
    {
      assert Trace(s)[j] == s.steps[j];
      assert s.steps[j].stage == Planned(c, r, j);
    }
  }

  /** Every global pre-filter and route filter (and the request id stage before them) let the request go on. */
  predicate FiltersPassed(c: Cobalt, r: Route, steps: seq<Step>) {
    forall k :: 0 <= k <= |c.prefilters| + |r.filters| ==> k < |steps| && steps[k].signal == Continue
  }

  /**
    The handler runs if and only if every pre-filter and route filter returned
    `true` without panicking, and then exactly once, right after the last filter.
   */
  lemma HandlerRunsIffFiltersPass(c: Cobalt, r: Route, req: Request, initial: Context, s: Served)
    requires Behaves(c, r, req, initial, s)
    ensures (exists k :: 0 <= k < |Trace(s)| && Trace(s)[k].stage == RouteHandler) <==> FiltersPassed(c, r, s.steps)
    ensures forall k :: 0 <= k < |Trace(s)| && Trace(s)[k].stage == RouteHandler ==>
              k == |c.prefilters| + |r.filters| + 1
  {
    var t := Trace(s);
    var h := |c.prefilters| + |r.filters| + 1;
    forall k | 0 <= k < |t| && t[k].stage == RouteHandler
      ensures k == h
    {
      assert k < |s.steps|;
      assert s.steps[k].stage == Planned(c, r, k);
    }
    if FiltersPassed(c, r, s.steps) {
      assert s.steps[h - 1].signal == Continue;
      assert |s.steps| != h;
      assert t[h] == s.steps[h];
      assert s.steps[h].stage == Planned(c, r, h);
    }
    if exists k :: 0 <= k < |t| && t[k].stage == RouteHandler {
      assert h < |s.steps|;
    }
  }

  /** Where the handler and the post-filters sit in the plan. */
  lemma PlannedAfterFilters(c: Cobalt, r: Route, k: nat)
    requires k < PlanLength(c, r)
    ensures Planned(c, r, k) == RouteHandler <==> k == |c.prefilters| + |r.filters| + 1
    ensures Planned(c, r, k).Postfilter? <==> k > |c.prefilters| + |r.filters| + 1
    ensures Planned(c, r, k).Postfilter? ==> Planned(c, r, k).index == k - |c.prefilters| - |r.filters| - 2
  {
  }

  lemma PostfilterPosition(c: Cobalt, r: Route, steps: seq<Step>, k: nat)
    requires OnPlan(c, r, 0, steps) && ContinuedUntilLast(steps)
    requires k < |steps| && steps[k].stage.Postfilter?
    ensures var h := |c.prefilters| + |r.filters| + 1;
      && k == h + 1 + steps[k].stage.index
      && steps[h].stage == RouteHandler && steps[h].signal == Continue
      && (forall i :: 0 <= i < steps[k].stage.index ==>
            steps[h + 1 + i].stage == Postfilter(i) && steps[h + 1 + i].signal == Continue)
  {
    var h := |c.prefilters| + |r.filters| + 1;
    assert steps[k].stage == Planned(c, r, k);
    PlannedAfterFilters(c, r, k);
    var i := steps[k].stage.index;
    assert steps[h].stage == Planned(c, r, h);
    PlannedAfterFilters(c, r, h);
    forall j | 0 <= j < i
      ensures steps[h + 1 + j].stage == Postfilter(j) && steps[h + 1 + j].signal == Continue
    {
      assert steps[h + 1 + j].stage == Planned(c, r, h + 1 + j);
      PlannedAfterFilters(c, r, h + 1 + j);
    }
  }

  /**
    Post-filter `i` runs only after the handler finished normally and after
    post-filters `0..i-1` finished normally.
   */
  lemma PostfilterRunsAfterHandler(c: Cobalt, r: Route, req: Request, initial: Context, s: Served, k: nat)
    requires Behaves(c, r, req, initial, s)
    requires k < |Trace(s)| && Trace(s)[k].stage.Postfilter?
    ensures var h := |c.prefilters| + |r.filters| + 1;
      && k == h + 1 + Trace(s)[k].stage.index
      && s.steps[h].stage == RouteHandler && s.steps[h].signal == Continue
      && (forall i :: 0 <= i < Trace(s)[k].stage.index ==>
            s.steps[h + 1 + i].stage == Postfilter(i) && s.steps[h + 1 + i].signal == Continue)
  {
    var n := |s.steps|;
    if s.recovery.Some? {
      assert Trace(s)[n].stage == ServerError;
    }
    assert k < n && Trace(s)[k] == s.steps[k];
    PostfilterPosition(c, r, s.steps, k);
  }

  /**
    Once the handler returned normally, the post-filters cannot stop the
    request: unless one panics, all of them run, in registration order.
   */
  lemma AllPostfiltersRunAfterHandler(c: Cobalt, r: Route, req: Request, initial: Context, s: Served)
    requires Behaves(c, r, req, initial, s)
    requires var h := |c.prefilters| + |r.filters| + 1;
      && h < |s.steps| && s.steps[h].signal == Continue
      && (forall k :: h < k < |s.steps| ==> s.steps[k].signal != Panic)
    ensures var h := |c.prefilters| + |r.filters| + 1;
      && |s.steps| == h + 1 + |c.postfilters|
      && (forall i :: 0 <= i < |c.postfilters| ==>
            s.steps[h + 1 + i].stage == Postfilter(i) && HandlerRan(c.postfilters[i], s.steps[h + 1 + i]))
  {
    var h := |c.prefilters| + |r.filters| + 1;
    var last := |s.steps| - 1;
    assert StepRuns(c, r, s.steps[last]);
    assert s.steps[last].stage == Planned(c, r, last);
    assert s.steps[last].signal == Continue;
    forall i | 0 <= i < |c.postfilters|
      ensures s.steps[h + 1 + i].stage == Postfilter(i) && HandlerRan(c.postfilters[i], s.steps[h + 1 + i])
    {
      PostfilterStepRuns(c, r, s.steps, i);
    }
  }

  /** On a complete plan, position `h + 1 + i` is post-filter `i`, run by that post-filter. */
  lemma PostfilterStepRuns(c: Cobalt, r: Route, steps: seq<Step>, i: nat)
    requires OnPlan(c, r, 0, steps) && AllRun(c, r, steps) && |steps| == PlanLength(c, r)
    requires i < |c.postfilters|
    ensures var k := |c.prefilters| + |r.filters| + 2 + i;
      steps[k].stage == Postfilter(i) && HandlerRan(c.postfilters[i], steps[k])
  {
    var k := |c.prefilters| + |r.filters| + 2 + i;
    assert steps[k].stage == Planned(c, r, k);
    assert StepRuns(c, r, steps[k]);
  }

  /**
    A panic in any stage ends the boundary there. With a server-error
    handler it runs once, on the context the panic left, and no completion
    record is logged; without one the record is logged with that context's status.
   */
  lemma PanicSkipsRemainingStages(c: Cobalt, r: Route, req: Request, initial: Context, s: Served, k: nat)
    requires Behaves(c, r, req, initial, s)
    requires k < |s.steps| && s.steps[k].signal == Panic
    ensures k == |s.steps| - 1
    ensures c.serverError.Some? ==>
      && s.recovery.Some?
      && s.recovery.value.before == s.steps[k].after
      && HandlerRan(c.serverError.value, s.recovery.value)
      && s.record.None?
    ensures c.serverError.None? ==>
      && s.recovery.None?
      && s.ctx == s.steps[k].after
      && s.record == Some(Record(s.steps[k].after.id, s.steps[k].after.status, req.verb, req.uri, req.remoteAddr))
  {
    if c.serverError.Some? {
      assert StepRuns(c, r, s.recovery.value);
    }
  }

  /**
    Without a panic, whether the chain ran to the end or a filter stopped it,
    the completion record is logged once, with the final context's id and status.
   */
  lemma NoPanicLogsCompletion(c: Cobalt, r: Route, req: Request, initial: Context, s: Served)
    requires Behaves(c, r, req, initial, s)
    requires forall k :: 0 <= k < |s.steps| ==> s.steps[k].signal != Panic
    ensures s.recovery.None? && !s.escaped
    ensures Trace(s) == s.steps
    ensures s.ctx == s.steps[|s.steps| - 1].after
    ensures s.record == Some(Record(s.ctx.id, s.ctx.status, req.verb, req.uri, req.remoteAddr))
  {
    assert s.steps[|s.steps| - 1].signal != Panic;
  }

  /** Along a threaded run, a scratch value written by one stage is what a later stage reads, unless a stage between rewrote it. */
  lemma {:induction false} DataCarriesForward(start: Context, t: seq<Step>, end: Context, key: string, j: nat, k: nat)
    requires Threaded(start, t, end)
    requires j < k < |t|
    requires forall m :: j < m < k ==> GetData(t[m].after, key) == GetData(t[m].before, key)
    ensures GetData(t[k].before, key) == GetData(t[j].after, key)
    decreases k - j
  {
    if k == j + 1 {
      assert t[j].after == t[j + 1].before;
    } else {
      DataCarriesForward(start, t, end, key, j, k - 1);
      assert t[k - 1].after == t[k].before;
    }
  }

  /**
    One context flows through every stage of a request, the server-error
    handler included: data set by a filter is seen by later filters, the
    handler, post-filters and the server-error handler.
   */
  lemma ScratchDataReachesLaterStages(c: Cobalt, r: Route, req: Request, initial: Context, s: Served,
                                      key: string, j: nat, k: nat)
    requires Behaves(c, r, req, initial, s)
    requires j < k < |Trace(s)|
    requires forall m :: j < m < k ==> GetData(Trace(s)[m].after, key) == GetData(Trace(s)[m].before, key)
    ensures GetData(Trace(s)[k].before, key) == GetData(Trace(s)[j].after, key)
  {
    BehavesIsExecution(c, r, req, initial, s);
    DataCarriesForward(initial, Trace(s), s.ctx, key, j, k);
  }

  /**
    The not-found path: no route closure, no filter, no request id; the
    not-found handler alone runs, on a new context with no route parameters.
   */
  lemma NotFoundRunsOnlyItsHandler(c: Cobalt, req: Request, id: string)
    ensures var rep := ServeHTTP(c, req, Unmatched, id);
      && !rep.Dispatched?
      && (c.notFound.Some? ==>
            && rep.NotFoundHandled?
            && rep.step.stage == NotFound
            && Header(rep.step.before.response, RequestId).None?
            && (forall key :: RouteValue(rep.step.before, key) == "")
            && AllRouteValues(rep.step.before).None?
            && HandlerRan(c.notFound.value, rep.step))
  {
  }

  /** A matched request runs the route stored at registration with the lists the dispatcher holds when it serves. */
  lemma MatchedRequestDispatches(c: Cobalt, req: Request, key: RouteKey, params: map<string, string>, id: string)
    requires key in c.routes
    ensures var rep := ServeHTTP(c, req, Matched(key, params), id);
      && rep.Dispatched?
      && Execution(c, c.routes[key], NewContext(id, req, Some(params), c.coder), Trace(rep.served), rep.served.ctx)
      && (forall p :: RouteValue(rep.served.steps[0].before, p) == if p in params then params[p] else "")
  {
    DispatchIsExecution(c, c.routes[key], req, params, id);
  }

  /**
    Global filters are read when a request is served, not when a route is
    registered: adding a pre-filter before or after a route gives the same dispatcher.
   */
  lemma PrefilterOrderAgainstRoutesIrrelevant(c: Cobalt, verb: string, path: string, h: Handler,
                                              filters: seq<Filter>, f: Filter)
    requires RouteKey(verb, path) !in c.routes
    ensures AddPrefilter(AddRoute(c, verb, path, h, filters), f) == AddRoute(AddPrefilter(c, f), verb, path, h, filters)
  {
  }

  /**
    Registering a nil server-error handler removes recovery: a panic then
    ends the request with the completion record and does not escape.
   */
  lemma NilServerErrorHandlerLogsPanics(c0: Cobalt, r: Route, req: Request, initial: Context, s: Served, k: nat)
    requires Behaves(AddServerErrHandler(c0, None), r, req, initial, s)
    requires k < |s.steps| && s.steps[k].signal == Panic
    ensures k == |s.steps| - 1
    ensures s.recovery.None? && !s.escaped
    ensures s.record == Some(Record(s.steps[k].after.id, s.steps[k].after.status, req.verb, req.uri, req.remoteAddr))
  {
    PanicSkipsRemainingStages(AddServerErrHandler(c0, None), r, req, initial, s, k);
  }

  /** The last server-error handler registered is the one in force. */
  lemma ServerErrorLastWins(c: Cobalt, h1: Option<Handler>, h2: Option<Handler>)
    ensures AddServerErrHandler(AddServerErrHandler(c, h1), h2) == AddServerErrHandler(c, h2)
  {
  }
}

=== FILE: pipeline.dfy ===
/**
  The stages of a dispatched request as step functions on the context, the
  trace a request leaves behind, and the two loops of cobalt.go's `addroute`
  closure: the halting filter loop and the post-filter loop.
 */
module Pipeline {

  import opened RequestContext

  /** What a stage did: went on, returned `false` (filters only), or panicked. */
  datatype Signal = Continue | Halt | Panic

  /** How a handler or post-filter ended. */
  datatype Completion = Done | Panicked

  /** A pre-filter or route filter (`FilterHandler`): `true` is `Continue`, `false` is `Halt`. */
  type Filter = Context -> (Context, Signal)

  /** A handler, post-filter, server-error or not-found handler (`Handler`). */
  type Handler = Context -> (Context, Completion)

  function SignalOf(o: Completion): (s: Signal)
    ensures s != Halt
    ensures s == Panic <==> o == Panicked
  {
    if o == Panicked then Panic else Continue
  }

  datatype Stage =
    | SetRequestId
    | Prefilter(index: nat)
    | RouteFilter(index: nat)
    | RouteHandler
    | Postfilter(index: nat)
    | ServerError
    | NotFound

  /** One stage that ran: the context it was given, the one it left, and how it ended. */
  datatype Step = Step(stage: Stage, before: Context, after: Context, signal: Signal)

  /** The result of running a sequence of stages. */
  datatype Flow = Flow(ctx: Context, steps: seq<Step>, signal: Signal)

  /** One context flows through `steps`, from `start` to `end`. */
  predicate Threaded(start: Context, steps: seq<Step>, end: Context) {
    if |steps| == 0 then end == start
    else
      && steps[0].before == start
      && (forall k :: 0 <= k < |steps| - 1 ==> steps[k].after == steps[k + 1].before)
      && steps[|steps| - 1].after == end
  }

  lemma ThreadedAppend(a: Context, s: seq<Step>, b: Context, t: seq<Step>, c: Context)
    requires Threaded(a, s, b) && Threaded(b, t, c)
    ensures Threaded(a, s + t, c)
  {
    if |s| > 0 && |t| > 0 {
      var st := s + t;
      forall k | 0 <= k < |st| - 1
        ensures st[k].after == st[k + 1].before
      {
        if k < |s| - 1 {
          assert st[k] == s[k] && st[k + 1] == s[k + 1];
        } else if k == |s| - 1 {
          assert st[k] == s[k] && st[k + 1] == t[0];
        } else {
          assert st[k] == t[k - |s|] && st[k + 1] == t[k - |s| + 1];
        }
      }
    } else if |s| == 0 {
      assert s + t == t;
    } else {
      assert s + t == s;
    }
  }

  /** `step` is what running `f` on its `before` context gives. */
  predicate FilterRan(f: Filter, step: Step) {
    var (after, sig) := f(step.before);
    after == step.after && sig == step.signal
  }

  /** `step` is what running `h` on its `before` context gives. */
  predicate HandlerRan(h: Handler, step: Step) {
    var (after, o) := h(step.before);
    after == step.after && SignalOf(o) == step.signal
  }

  function FilterStage(global: bool, i: nat): Stage {
    if global then Prefilter(i) else RouteFilter(i)
  }

  /** Every step but the last went on. */
  predicate ContinuedUntilLast(steps: seq<Step>) {
    forall k :: 0 <= k < |steps| - 1 ==> steps[k].signal == Continue
  }

  /**
    `steps` are filters `from`, `from + 1`, ... of `fs` run in order, each
    ending with `Continue` except possibly the last.
   */
  predicate FilterSteps(fs: seq<Filter>, global: bool, from: nat, steps: seq<Step>) {
    && from + |steps| <= |fs|
    && (forall k :: 0 <= k < |steps| ==> steps[k].stage == FilterStage(global, from + k))
    && (forall k :: 0 <= k < |steps| ==> FilterRan(fs[from + k], steps[k]))
    && ContinuedUntilLast(steps)
  }

  /** `steps` are post-filters `from`, `from + 1`, ... of `hs` run in order, all but the last done. */
  predicate PostfilterSteps(hs: seq<Handler>, from: nat, steps: seq<Step>) {
    && from + |steps| <= |hs|
    && (forall k :: 0 <= k < |steps| ==> steps[k].stage == Postfilter(from + k))
    && (forall k :: 0 <= k < |steps| ==> HandlerRan(hs[from + k], steps[k]))
    && ContinuedUntilLast(steps)
  }

  /** How a flow ends: with the last step's signal, or `Continue` when nothing ran. */
  predicate EndsWith(f: Flow) {
    f.signal == if |f.steps| == 0 then Continue else f.steps[|f.steps| - 1].signal
  }

  lemma FilterStepsCons(fs: seq<Filter>, global: bool, from: nat, step: Step, rest: seq<Step>)
    requires from < |fs|
    requires step.stage == FilterStage(global, from) && FilterRan(fs[from], step)
    requires step.signal == Continue
    requires FilterSteps(fs, global, from + 1, rest)
    ensures FilterSteps(fs, global, from, [step] + rest)
  {
    var steps := [step] + rest;
    assert forall k :: 1 <= k < |steps| ==> steps[k] == rest[k - 1];
  }

  lemma PostfilterStepsCons(hs: seq<Handler>, from: nat, step: Step, rest: seq<Step>)
    requires from < |hs|
    requires step.stage == Postfilter(from) && HandlerRan(hs[from], step)
    requires step.signal == Continue
    requires PostfilterSteps(hs, from + 1, rest)
    ensures PostfilterSteps(hs, from, [step] + rest)
  {
    var steps := [step] + rest;
    assert forall k :: 1 <= k < |steps| ==> steps[k] == rest[k - 1];
  }

  /**
    The filter loop from position `from`: each filter gets the context the
    previous one left; the first `Halt` or `Panic` ends the loop.
   */
  function RunFilters(fs: seq<Filter>, global: bool, from: nat, ctx: Context): (f: Flow)
    requires from <= |fs|
    ensures FilterSteps(fs, global, from, f.steps)
    ensures Threaded(ctx, f.steps, f.ctx)
    ensures EndsWith(f)
    ensures f.signal == Continue ==> from + |f.steps| == |fs|
    decreases |fs| - from
  {
    if from == |fs| then Flow(ctx, [], Continue)
    else
      var (next, sig) := fs[from](ctx);
      var step := Step(FilterStage(global, from), ctx, next, sig);
      if sig == Continue then
        var rest := RunFilters(fs, global, from + 1, next);
        ThreadedAppend(ctx, [step], next, rest.steps, rest.ctx);
        FilterStepsCons(fs, global, from, step, rest.steps);
        Flow(rest.ctx, [step] + rest.steps, rest.signal)
      else Flow(next, [step], sig)
  }

  /** The post-filter loop from position `from`: no halting, only a panic ends it early. */
  function RunPostfilters(hs: seq<Handler>, from: nat, ctx: Context): (f: Flow)
    requires from <= |hs|
    ensures PostfilterSteps(hs, from, f.steps)
    ensures Threaded(ctx, f.steps, f.ctx)
    ensures EndsWith(f)
    ensures f.signal != Halt
    ensures f.signal == Continue ==> from + |f.steps| == |hs|
    decreases |hs| - from
  {
    if from == |hs| then Flow(ctx, [], Continue)
    else
      var (next, o) := hs[from](ctx);
      var step := Step(Postfilter(from), ctx, next, SignalOf(o));
      if o == Done then
        var rest := RunPostfilters(hs, from + 1, next);
        ThreadedAppend(ctx, [step], next, rest.steps, rest.ctx);
        PostfilterStepsCons(hs, from, step, rest.steps);
        Flow(rest.ctx, [step] + rest.steps, rest.signal)
      else Flow(next, [step], Panic)
  }
}

=== FILE: properties.dfy ===
/**
  The dispatch pipeline as a small-step state machine, and what the route
  closure of `addroute` is proved to do against it: ordering, short-circuit,
  threading of one context, failure isolation and completion accounting.
 */
module DispatchProperties {

  import opened Wrappers
  import opened Response
  import opened RequestContext
  import opened Pipeline
  import opened Dispatcher

  /** Everything that ran for a dispatched request, the server-error handler included. */
  function Trace(s: Served): (t: seq<Step>)
    ensures |t| == |s.steps| + (if s.recovery.Some? then 1 else 0)
    ensures forall k :: 0 <= k < |s.steps| ==> t[k] == s.steps[k]
    ensures s.recovery.Some? ==> t[|s.steps|] == s.recovery.value
  {
    s.steps + if s.recovery.Some? then [s.recovery.value] else []
  }

  function FirstRouteStage(r: Route): Stage {
    if |r.filters| > 0 then RouteFilter(0) else RouteHandler
  }

  /**
    The stage that comes after `stage` ended with `sig`, or `None` when the
    request is over: `false` from a filter ends it, a panic hands over to the
    server-error handler if there is one, post-filters cannot stop early.
   */
  function Next(c: Cobalt, r: Route, stage: Stage, sig: Signal): Option<Stage> {
    match sig
    case Halt => None
    case Panic => if stage != ServerError && c.serverError.Some? then Some(ServerError) else None
    case Continue =>
      match stage
      case SetRequestId => Some(if |c.prefilters| > 0 then Prefilter(0) else FirstRouteStage(r))
      case Prefilter(i) => Some(if i + 1 < |c.prefilters| then Prefilter(i + 1) else FirstRouteStage(r))
      case RouteFilter(i) => Some(if i + 1 < |r.filters| then RouteFilter(i + 1) else RouteHandler)
      case RouteHandler => if |c.postfilters| > 0 then Some(Postfilter(0)) else None
      case Postfilter(i) => if i + 1 < |c.postfilters| then Some(Postfilter(i + 1)) else None
      case ServerError => None
      case NotFound => None
  }

  /**
    `t` is a complete run of the state machine from context `initial` to
    `final`: it starts with the request id, each step does what its stage's
    code does to the context the previous step left, each stage is the one
    `Next` chose, and the last stage has no successor.
   */
  predicate Execution(c: Cobalt, r: Route, initial: Context, t: seq<Step>, final: Context) {
    && |t| > 0
    && t[0].stage == SetRequestId
    && Threaded(initial, t, final)
    && AllRun(c, r, t)
    && (forall k :: 0 <= k < |t| - 1 ==> Next(c, r, t[k].stage, t[k].signal) == Some(t[k + 1].stage))
    && Next(c, r, t[|t| - 1].stage, t[|t| - 1].signal) == None
  }

  /** Continuing from a planned stage leads to the next planned stage, and past the last one to nothing. */
  lemma NextWalksPlan(c: Cobalt, r: Route, k: nat)
    requires k < PlanLength(c, r)
    ensures k + 1 < PlanLength(c, r) ==> Next(c, r, Planned(c, r, k), Continue) == Some(Planned(c, r, k + 1))
    ensures k + 1 == PlanLength(c, r) ==> Next(c, r, Planned(c, r, k), Continue) == None
  {
  }

  /** A served request that meets the contract is a complete execution of the state machine. */
  lemma {:induction false} BehavesIsExecution(c: Cobalt, r: Route, req: Request, initial: Context, s: Served)
    requires Behaves(c, r, req, initial, s)
    ensures Execution(c, r, initial, Trace(s), s.ctx)
  {
    var t := Trace(s);
    var n := |s.steps|;
    var last := s.steps[n - 1];
    forall k | 0 <= k < n - 1
      ensures Next(c, r, t[k].stage, t[k].signal) == Some(t[k + 1].stage)
    {
      NextWalksPlan(c, r, k);
    }
    if s.recovery.Some? {
      var rec := s.recovery.value;
      assert t == s.steps + [rec];
      assert last.stage == Planned(c, r, n - 1);
      assert Next(c, r, t[n - 1].stage, t[n - 1].signal) == Some(t[n].stage);
      ThreadedAppend(initial, s.steps, last.after, [rec], s.ctx);
    } else {
      assert t == s.steps;
      if last.signal == Continue {
        NextWalksPlan(c, r, n - 1);
      }
    }
  }

  /** The route closure runs the state machine: its trace is a complete execution from the new context. */
  lemma DispatchIsExecution(c: Cobalt, r: Route, req: Request, params: map<string, string>, id: string)
    ensures var s := Dispatch(c, r, req, params, id);
      Execution(c, r, NewContext(id, req, Some(params), c.coder), Trace(s), s.ctx)
  {
    BehavesIsExecution(c, r, req, NewContext(id, req, Some(params), c.coder), Dispatch(c, r, req, params, id));
  }

  /** A stage's code is a function of the context it is given. */
  lemma StepRunsDeterministic(c: Cobalt, r: Route, a: Step, b: Step)
    requires a.stage == b.stage && a.before == b.before
    requires StepRuns(c, r, a) && StepRuns(c, r, b)
    ensures a == b
  {
  }

  lemma {:induction false} ExecutionsAgreeAt(c: Cobalt, r: Route, initial: Context,
                                             t1: seq<Step>, f1: Context, t2: seq<Step>, f2: Context, k: nat)
    requires Execution(c, r, initial, t1, f1) && Execution(c, r, initial, t2, f2)
    requires k < |t1| && k < |t2|
    ensures t1[k] == t2[k]
    decreases k
  {
    if k == 0 {
      StepRunsDeterministic(c, r, t1[0], t2[0]);
    } else {
      ExecutionsAgreeAt(c, r, initial, t1, f1, t2, f2, k - 1);
      assert Next(c, r, t1[k - 1].stage, t1[k - 1].signal) == Some(t1[k].stage);
      assert t1[k].before == t1[k - 1].after;
      assert t2[k].before == t2[k - 1].after;
      StepRunsDeterministic(c, r, t1[k], t2[k]);
    }
  }

  /** In a complete execution only the last stage has no successor. */
  lemma ExecutionEndsOnlyAtLast(c: Cobalt, r: Route, initial: Context, t: seq<Step>, final: Context, k: nat)
    requires Execution(c, r, initial, t, final)
    requires k < |t|
    ensures Next(c, r, t[k].stage, t[k].signal).None? <==> k == |t| - 1
  {
    if k < |t| - 1 {
      assert Next(c, r, t[k].stage, t[k].signal) == Some(t[k + 1].stage);
    }
  }

  /** The state machine is deterministic: from one context there is exactly one complete execution. */
  lemma ExecutionUnique(c: Cobalt, r: Route, initial: Context,
                        t1: seq<Step>, f1: Context, t2: seq<Step>, f2: Context)
    requires Execution(c, r, initial, t1, f1) && Execution(c, r, initial, t2, f2)
    ensures t1 == t2 && f1 == f2
  {
    var k := (if |t1| < |t2| then |t1| else |t2|) - 1;
    ExecutionsAgreeAt(c, r, initial, t1, f1, t2, f2, k);
    ExecutionEndsOnlyAtLast(c, r, initial, t1, f1, k);
    ExecutionEndsOnlyAtLast(c, r, initial, t2, f2, k);
    assert |t1| == |t2|;
    forall j | 0 <= j < |t1|
      ensures t1[j] == t2[j]
    {
      ExecutionsAgreeAt(c, r, initial, t1, f1, t2, f2, j);
    }
  }

  /** So the route closure is characterised by the state machine: any complete execution is its trace. */
  lemma DispatchIsTheExecution(c: Cobalt, r: Route, req: Request, params: map<string, string>, id: string,
                               t: seq<Step>, final: Context)
    requires Execution(c, r, NewContext(id, req, Some(params), c.coder), t, final)
    ensures t == Trace(Dispatch(c, r, req, params, id))
    ensures final == Dispatch(c, r, req, params, id).ctx
  {
    var s := Dispatch(c, r, req, params, id);
    DispatchIsExecution(c, r, req, params, id);
    ExecutionUnique(c, r, NewContext(id, req, Some(params), c.coder), t, final, Trace(s), s.ctx);
  }
}

=== FILE: response.dfy ===
/**
  The `http.ResponseWriter` a context writes to, kept as the raw sequence of
  calls made on it, and the queries the helpers' contracts are stated with.
 */
module Response {

  import opened Wrappers

  newtype byte = x: int | 0 <= x < 256

  /** A Go `interface{}` value handed to the coder or stored in scratch data. */
  datatype Value =
    | Nil
    | Text(text: string)
    | Number(number: int)
    | Struct(fields: seq<(string, Value)>)

  /** What reached the body: a value the coder encoded, or bytes written verbatim. */
  datatype Body = Encoded(value: Value) | Raw(bytes: seq<byte>)

  /** One call on the response writer. */
  datatype Event =
    | SetHeader(key: string, text: string)  // w.Header().Set(key, text)
    | WriteHeader(status: int)              // w.WriteHeader(status)
    | WriteBody(body: Body)                 // w.Write / coder.Encode(w, v)

  const ContentType: string := "Content-Type"
  const CacheControl: string := "Cache-control"
  const RequestId: string := "X-Request-Id"

  /** The status codes written, in order. */
  function Statuses(log: seq<Event>): (r: seq<int>)
    ensures |r| <= |log|
  {
    if |log| == 0 then []
    else match log[0]
      case WriteHeader(s) => [s] + Statuses(log[1..])
      case _ => Statuses(log[1..])
  }

  /** The bodies written, in order. */
  function Bodies(log: seq<Event>): (r: seq<Body>)
    ensures |r| <= |log|
  {
    if |log| == 0 then []
    else match log[0]
      case WriteBody(b) => [b] + Bodies(log[1..])
      case _ => Bodies(log[1..])
  }

  /**
    The value the header `key` holds after the log: the last `Set` of that
    exact name wins. Names are compared as written, not canonicalised.
   */
  function Header(log: seq<Event>, key: string): (r: Option<string>)
    ensures r.None? <==> forall i :: 0 <= i < |log| ==> !(log[i].SetHeader? && log[i].key == key)
    ensures r.Some? ==> SetHeader(key, r.value) in log
    decreases |log|
  {
    if |log| == 0 then None
    else
      var e := log[|log| - 1];
      if e.SetHeader? && e.key == key then Some(e.text) else Header(log[..|log| - 1], key)
  }

  /** Every header is set before the first status write. */
  predicate HeadersBeforeStatus(log: seq<Event>) {
    forall i, j :: 0 <= i < j < |log| && log[i].WriteHeader? ==> !log[j].SetHeader?
  }

  /** No body is written before the first status write. */
  predicate BodyAfterStatus(log: seq<Event>) {
    forall i, j :: 0 <= i < j < |log| && log[j].WriteHeader? ==> !log[i].WriteBody?
  }

  lemma {:induction false} StatusesAppend(a: seq<Event>, b: seq<Event>)
    ensures Statuses(a + b) == Statuses(a) + Statuses(b)
    decreases |a|
  {
    if |a| > 0 {
      assert (a + b)[1..] == a[1..] + b;
      StatusesAppend(a[1..], b);
    } else {
      assert a + b == b;
    }
  }

  lemma {:induction false} BodiesAppend(a: seq<Event>, b: seq<Event>)
    ensures Bodies(a + b) == Bodies(a) + Bodies(b)
    decreases |a|
  {
    if |a| > 0 {
      assert (a + b)[1..] == a[1..] + b;
      BodiesAppend(a[1..], b);
    } else {
      assert a + b == b;
    }
  }

  /** A header set later overrides one set earlier. */
  lemma {:induction false} HeaderAppend(a: seq<Event>, b: seq<Event>, key: string)
    ensures Header(a + b, key) == if Header(b, key).Some? then Header(b, key) else Header(a, key)
    decreases |b|
  {
    if |b| == 0 {
      assert a + b == a;
    } else {
      assert (a + b)[..|a + b| - 1] == a + b[..|b| - 1];
      HeaderAppend(a, b[..|b| - 1], key);
    }
  }
}

=== FILE: wrappers.dfy ===
/** Optional values: Go's nil-able maps and handlers, and lookups that may miss. */
module Wrappers {

  datatype Option<+T> = None | Some(value: T)
}
